=== FILE: README.md ===
# Generic record service of the ERP dashboard, modelled in Dafny

The dashboard reads and writes its tables through one generic class,
`SupabaseService<T>` (`erp-ai/src/services/supabase.ts`). It is bound to a
table name at construction. Its seven methods are `getAll`, `getById`,
`create`, `update`, `delete`, `count` and `search`. Each one chains
query-builder calls onto `from(table)`, awaits the remote store's
`{ data, count, error }` and then either throws `error` or returns the data.

This model describes each method as two pure functions:

- a query function (`GetAllQuery`, `GetByIdQuery`, …) maps the method's
  arguments to a `Query`. A `Query` is the table name plus the sequence of
  builder `Step`s (`Select`, `Eq`, `Order`, `Limit`, `Range`, `ILike`, `Or`,
  `Single`, `CountExact`, `Insert`, `UpdateWith`, `DeleteRows`) in the order the code
  chains them;
- an outcome function (`GetAll`, `GetById`, …) takes the remote store as a
  parameter `remote: Query -> Response<D>` and returns `Returned(value)` or
  `Thrown(error)`.

The remote store is not given any behaviour. Every property is therefore
about what the service asks for and how it treats the answer.

The JavaScript details the code depends on are written out in Dafny:

- the filter skip rule (`value !== undefined && value !== null && value !== ''`, `JsValues.IsKept`);
- number truthiness for `limit` and `offset`, where `undefined`, `0` and `NaN` are falsy and fractions are truthy;
- `select || '*'`;
- `ascending !== false`;
- `limit || 10`;
- `count || 0`.

`.select()` with no argument is modelled as `Select("*")`, which is the
builder's default. Dafny files:

- `wrappers.dfy`: `Option`.
- `js_values.dfy`: `JsNumber` (a finite real or `NaN`), `JsValue` (`Undefined | Null | Str | Num | Bool | Arr | Obj`), record entries, the skip rule and truthiness.
- `queries.dfy`: `Step`, `Query`, `Response`, `Outcome`, the error-propagation predicate, and selection of steps by kind.
- `filters.dfy`: the filter loop shared by `getAll` and `count`.
- `list_query.dfy`: the `getAll` query (projection, sort, limit, offset window).
- `search_query.dfy`: the `search` query and how the remote reads its `.or(...)` condition.
- `record_service.dfy`: the other queries, the seven outcome functions and lemmas relating the operations.

Behaviour of the code worth knowing, each stated by a lemma:

- **Search is not a union.** `search(term, cols)` chains `.ilike` on the
  first column and then one separate `.or(...)` call per later column. Each
  call holds a single condition. The remote combines separate filter calls
  with AND, so the query does not ask for "rows where any column matches".
  The model states the literal step sequence (`SearchQueries.SearchQuery`)
  and claims no union semantics.
- **The search term is not escaped.** It is put into the `.or(...)` text
  as it is, so a comma in the term splits the condition in two
  (`SearchQueries.CommaInTermSplitsCondition`).
- **An offset of 0 or NaN is dropped.** The code checks `offset` for
  truthiness, so `offset: 0` or `offset: NaN` (as `Number('')` gives) without
  a truthy `limit` produces a query with no window and no limit. Every other
  offset without a limit is bounded to 10 rows
  (`ListQuery.OffsetZeroIsUnbounded`).
- **Errors are passed on unclassified.** There is no not-found or
  validation kind: every method throws the remote error object unchanged
  (`Queries.Settle` and `Queries.SettleWith`, both stated through
  `Queries.Propagates`).
- **`getById('')` still filters.** `getById` filters on `id = ''` even though
  the same value as a `getAll` filter would be skipped
  (`RecordService.GetByIdKeepsEmptyId`).

## Model

| member | source | states |
|---|---|---|
| JsValues.IsKept | erp-ai/src/services/supabase.ts:44 | a filter value is dropped exactly when it is undefined, null or the empty string |
| Filters.FilterSteps | erp-ai/src/services/supabase.ts:42-48 | every step the filter loop adds is an `.eq` with a kept value (not undefined, null or ''); there are never more steps than entries; all entries are used exactly when every value is kept |
| Filters.KeptIndices | erp-ai/src/services/supabase.ts:43-44 | the positions of the entries that pass the skip rule, strictly increasing, and containing every such position |
| Filters.FilterStepsFollowKeptIndices | erp-ai/src/services/supabase.ts:42-48 | the filter steps are exactly one `Eq(key, value)` per kept entry, in the order the entries are enumerated |
| Filters.FilterStepsAppend | erp-ai/src/services/supabase.ts:43-47 | filtering a record split in two gives the steps of the first part followed by those of the second |
| Filters.FilterStepMember | erp-ai/src/services/supabase.ts:44-45 | `Eq(k, v)` is chained if and only if `k: v` is an entry and `v` is not undefined, null or '', so 0 and false are kept |
| Filters.FilterStepsOnlyEq | erp-ai/src/services/supabase.ts:42-48 | the filter loop adds no step of any kind other than `.eq` |
| Filters.ZeroKeptUndefinedSkipped | erp-ai/src/services/supabase.ts:44 | `{ quantity: 0, name: undefined }` filters on `quantity = 0` only |
| ListQuery.Projection | erp-ai/src/services/supabase.ts:40 | the projection is the given one when it is non-empty, and `*` exactly when it is absent, empty or itself `*` |
| ListQuery.OrderSteps | erp-ai/src/services/supabase.ts:50-54 | one order step exactly when `orderBy` is given, on its column, ascending exactly when `ascending` is absent or true |
| ListQuery.LimitSteps | erp-ai/src/services/supabase.ts:56-58 | one limit step, of `limit` rows, exactly when `limit` is given and neither 0 nor NaN |
| ListQuery.RangeSteps | erp-ai/src/services/supabase.ts:60-62 | one window exactly when `offset` is given and neither 0 nor NaN, fractions included; it starts at `offset` and is `limit` rows wide when `limit` is truthy, 10 rows when it is absent, 0 or NaN |
| ListQuery.GetAllQuery | erp-ai/src/services/supabase.ts:40-62 | the query on the service's table is the projection, then the filter steps, the order step, the limit step and the window, with no other step |
| ListQuery.NoOptionsSelectsEverything | erp-ai/src/services/supabase.ts:33-40 | `getAll()` asks for `*` with no filter, sort, limit or window |
| ListQuery.SecondPageWindow | erp-ai/src/services/supabase.ts:60-62 | `{ limit: 10, offset: 20 }` asks for rows 20 to 29 inclusive |
| ListQuery.NaNLimitAndFractionalOffset | erp-ai/src/services/supabase.ts:56-62 | `{ limit: NaN, offset: 5 }` chains no limit and the window 5 to 14; `{ offset: 0.5 }` chains the window 0.5 to 9.5 |
| ListQuery.OffsetZeroIsUnbounded | erp-ai/src/services/supabase.ts:56-62 | without a truthy limit, offset 0 or NaN adds neither limit nor window, while any other offset adds the 10-row window starting at it |
| Queries.Settle | erp-ai/src/services/supabase.ts:64-66 | the remote error is thrown unchanged, and the data is returned only when there is no error |
| Queries.SettleWith | erp-ai/src/services/supabase.ts:123-125 | for `count`, which returns the count rather than the data: the remote error is thrown unchanged, and the value is returned only when there is no error |
| RecordService.GetAll | erp-ai/src/services/supabase.ts:64-66 | the remote error is thrown unchanged; the data is returned only when there is no error |
| RecordService.GetByIdQuery | erp-ai/src/services/supabase.ts:69-74 | the projection (defaulting to `*`), a filter on `id` and nothing else, then `.single()` |
| RecordService.GetById | erp-ai/src/services/supabase.ts:76-77 | the remote error is thrown unchanged; the row is returned only when there is no error |
| RecordService.GetByIdIsSingleFilteredList | erp-ai/src/services/supabase.ts:69-74 | for a non-empty id, `getById` is `getAll` filtered on that id with `.single()` chained on |
| RecordService.GetByIdKeepsEmptyId | erp-ai/src/services/supabase.ts:69-74 | for the empty id, `getById` still filters on `id = ''` where `getAll` would drop that filter |
| RecordService.CreateQuery | erp-ai/src/services/supabase.ts:80-85 | one insert of the body as given, no filter, then `*` is read back from exactly one row |
| RecordService.Create | erp-ai/src/services/supabase.ts:87-88 | the remote error is thrown unchanged; the stored row is returned only when there is no error |
| RecordService.UpdateQuery | erp-ai/src/services/supabase.ts:91-97 | one update with the patch as given, filtered on `id` only, then `*` is read back from exactly one row |
| RecordService.Update | erp-ai/src/services/supabase.ts:99-100 | the remote error is thrown unchanged; the updated row is returned only when there is no error |
| RecordService.DeleteQuery | erp-ai/src/services/supabase.ts:103-107 | a delete filtered on `id` only, with no `.single()` and no read-back |
| RecordService.Delete | erp-ai/src/services/supabase.ts:109-110 | the remote error is thrown unchanged; otherwise it returns nothing, whatever data came back |
| RecordService.ByIdOperationsShareFilter | erp-ai/src/services/supabase.ts:69-107 | `getById`, `update` and `delete` with the same id carry the same single filter |
| RecordService.CreateReadsBackAsGetById | erp-ai/src/services/supabase.ts:69-85 | after the insert, `create` reads the row back with the projection and `.single()` of `getById`, without its `id` filter |
| RecordService.UpdateReadsBackAsGetById | erp-ai/src/services/supabase.ts:69-97 | after the patch, `update` chains the same `id` filter, projection and `.single()` as `getById`, the filter first |
| RecordService.CountQuery | erp-ai/src/services/supabase.ts:112-121 | a head-only exact count of `*`, followed by the filter steps `getAll` would chain for the same filters, and nothing else |
| RecordService.CountOrZero | erp-ai/src/services/supabase.ts:125 | the remote count when there is one; the result is 0 exactly when the count is null or 0 |
| RecordService.Count | erp-ai/src/services/supabase.ts:123-125 | the remote error is thrown unchanged; otherwise the count, or 0 when null, is returned, and it is non-negative when the remote count is |
| RecordService.CountFiltersAsList | erp-ai/src/services/supabase.ts:113-121 | `count(filters)` filters exactly as `getAll` does with the same filters, whatever its other options |
| RecordService.CountIsUnpaged | erp-ai/src/services/supabase.ts:112-121 | `count` adds no order step, no limit and no window |
| RecordService.CountMatchesUnpagedList | erp-ai/src/services/supabase.ts:112-121 | after its head, the `count` query is the `getAll({ filters })` query |
| SearchQueries.SearchSteps | erp-ai/src/services/supabase.ts:131-137 | the loop adds one step per column, in column order: `ilike` for index 0 and `.or` for every later index |
| SearchQueries.SearchQuery | erp-ai/src/services/supabase.ts:128-137 | `*`, then `ILike(cols[0], "%"+term+"%")`, then for each later column in order a separate `Or(col + ".ilike.%" + term + "%")` |
| SearchQueries.NoColumnsIsUnfiltered | erp-ai/src/services/supabase.ts:129-137 | with no columns the search query is the bare `*` select |
| SearchQueries.OrIlikeClauseRoundTrip | erp-ai/src/services/supabase.ts:135 | when the column contains none of `.` `,` `(` `)` and the term none of `,` `(` `)`, the `.or` text reads back as exactly one condition: an `ilike` on that column with the `%term%` pattern the first column gets |
| SearchQueries.CommaInTermSplitsCondition | erp-ai/src/services/supabase.ts:135 | a term `a,b` is not escaped and reaches the remote as the condition `column.ilike.%a` followed by the malformed `b%` |
| RecordService.Search | erp-ai/src/services/supabase.ts:139-141 | the remote error is thrown unchanged; the rows are returned only when there is no error |

## Left out

- The remote store. It is a parameter of every outcome function, with no behaviour. Statements that depend on what it does are not modelled: the rows a filter, sort or window selects, `create` then `getById` returning the row, `delete` then `getById` failing, and `.single()` failing on zero or several rows.
- The client construction and the environment-variable check (`supabase.ts:1-11`): I/O at start-up.
- The `auth` helpers (`supabase.ts:14-27`) and the authentication context: session plumbing over an external provider.
- The `analytics` helpers (`supabase.ts:146-208`): they read the clock and use embedded-join selects that the remote interprets.
- The views, layout, login page, chat panel and routing: no logic beyond rendering.
- The row types (`types/database.ts`, `types/index.ts`): the service never looks inside a row, so rows stay the opaque data type `D`.
- Numbers: a `JsNumber` is a finite real or `NaN`. `Infinity`, `-0` and the rounding of 64-bit floating point are not modelled.
- ListQuery.RangeSteps: computes `offset + (limit || 10) - 1` exactly, while the code computes it in floating point, which rounds above 2^53; an infinite `offset` or `limit` is not modelled.
- ListQuery.LimitSteps: an infinite `limit` is not modelled.
- RecordService.CreateQuery: the body is a record of JSON-like `JsValue`s (strings, numbers with fractions, booleans, null, arrays, nested objects); values the client would serialise specially, such as `Date` objects, are not modelled.
- RecordService.UpdateQuery: the patch is a record of `JsValue`s, with the same limits as the body of `create`.
- Filter order: the entries of a `filters` record are taken in the order `Object.entries` enumerates them. That order is an input of the model, which does not reorder integer-like keys as JavaScript does.
- Asynchrony: each method awaits one round trip. The model treats that round trip as a single call of `remote`.
- SearchQueries.OrIlikeClauseRoundTrip: holds only for columns and terms without `,`, `(` or `)`, and for columns without `.`. The remote's `.or(...)` grammar gives these characters meaning. `SearchQueries.ParseOrFilter` models the split at commas (`SearchQueries.CommaInTermSplitsCondition`) but not parenthesised groups.
- Duplicate keys: `Fields` is a sequence and can repeat a key, which `Object.entries` never does. Each repeated entry that passes the skip rule gives its own `.eq` step. No lemma depends on keys being distinct.

=== FILE: filters.dfy ===
/** The filter loop shared by `getAll` and `count`: every entry of the
    `filters` record whose value passes `IsKept` becomes one `.eq(key, value)`
    call, in enumeration order. */
module Filters {
  import opened Wrappers
  import opened JsValues
  import opened Queries

  /** The `.eq` steps chained for `filters`. */
  function FilterSteps(fields: Fields): (r: seq<Step>)
    ensures |r| <= |fields|
    ensures forall i :: 0 <= i < |r| ==> r[i].Eq? && IsKept(r[i].value)
    ensures |r| == |fields| <==> forall j :: 0 <= j < |fields| ==> IsKept(fields[j].value)
  {
    if |fields| == 0 then []
    else
      var rest := FilterSteps(fields[1..]);
      assert forall j :: 1 <= j < |fields| ==> fields[1..][j - 1] == fields[j];
      (if IsKept(fields[0].value) then [Eq(fields[0].key, fields[0].value)] else []) + rest
  }

  /** An absent `filters` record adds no step, like an empty one. */
  function FieldsOf(filters: Option<Fields>): Fields {
    filters.GetOr([])
  }

  /** The positions of the kept entries, in increasing order: an independent
      description of which entries the filter loop uses. */
  function KeptIndices(fields: Fields): (r: seq<nat>)
    ensures forall i :: 0 <= i < |r| ==> r[i] < |fields| && IsKept(fields[r[i]].value)
    ensures forall i, j :: 0 <= i < j < |r| ==> r[i] < r[j]
    ensures forall j :: 0 <= j < |fields| && IsKept(fields[j].value) ==> j in r
  {
    if |fields| == 0 then []
    else
      var n := |fields| - 1;
      var init := KeptIndices(fields[..n]);
      assert forall j :: 0 <= j < n ==> fields[..n][j] == fields[j];
      if IsKept(fields[n].value) then init + [n] else init
  }

  /** Filtering a record split in two filters each part in turn. */
  lemma {:induction false} FilterStepsAppend(a: Fields, b: Fields)
    ensures FilterSteps(a + b) == FilterSteps(a) + FilterSteps(b)
  {
    if |a| == 0 {
      assert a + b == b;
    } else {
      assert (a + b)[1..] == a[1..] + b;
      FilterStepsAppend(a[1..], b);
    }
  }

  /** Adding an entry at the end adds its `.eq` step, if any, at the end. */
  lemma FilterStepsSnoc(init: Fields, last: Field)
    ensures FilterSteps(init + [last])
      == FilterSteps(init) + (if IsKept(last.value) then [Eq(last.key, last.value)] else [])
  {
    assert [last][1..] == [];
    FilterStepsAppend(init, [last]);
  }

  /** The filter steps are exactly one `Eq(key, value)` per kept entry,
      taken in the order the entries are enumerated. */
  lemma {:induction false} FilterStepsFollowKeptIndices(fields: Fields)
    ensures |FilterSteps(fields)| == |KeptIndices(fields)|
    ensures forall i :: 0 <= i < |FilterSteps(fields)| ==>
      FilterSteps(fields)[i] == Eq(fields[KeptIndices(fields)[i]].key, fields[KeptIndices(fields)[i]].value)
  {
    if |fields| > 0 {
      var n := |fields| - 1;
      var init, last := fields[..n], fields[n];
      assert fields == init + [last];
      FilterStepsSnoc(init, last);
      FilterStepsFollowKeptIndices(init);
      var r, r0 := FilterSteps(fields), FilterSteps(init);
      var ix, ix0 := KeptIndices(fields), KeptIndices(init);
      assert ix == ix0 + (if IsKept(last.value) then [n] else []);
      forall i | 0 <= i < |r|
        ensures r[i] == Eq(fields[ix[i]].key, fields[ix[i]].value)
      {
        if i < |r0| {
          assert r[i] == r0[i] && ix[i] == ix0[i];
          assert init[ix0[i]] == fields[ix0[i]];
        }
      }
    }
  }

  /** `Eq(key, value)` is chained exactly when the record has the entry
      `key: value` and the value is not `undefined`, `null` or `''`. */
  lemma {:induction false} FilterStepMember(fields: Fields, key: string, value: JsValue)
    ensures Eq(key, value) in FilterSteps(fields) <==> Field(key, value) in fields && IsKept(value)
  {
    if |fields| > 0 {
      FilterStepMember(fields[1..], key, value);
      assert fields == [fields[0]] + fields[1..];
    }
  }

  /** The filter loop chains nothing but `.eq` calls. */
  lemma FilterStepsOnlyEq(fields: Fields, other: StepKind)
    ensures OfKind(FilterSteps(fields), EqKind) == FilterSteps(fields)
    ensures other != EqKind ==> OfKind(FilterSteps(fields), other) == []
  {
    OfKindUniform(FilterSteps(fields), EqKind, other);
  }

  /** `{ quantity: 0, name: undefined }` filters on `quantity = 0` only. */
  lemma ZeroKeptUndefinedSkipped()
    ensures FilterSteps([Field("quantity", Num(Finite(0.0))), Field("name", Undefined)]) == [Eq("quantity", Num(Finite(0.0)))]
  {
    var fields := [Field("quantity", Num(Finite(0.0))), Field("name", Undefined)];
    assert fields[1..][1..] == [];
  }
}

=== FILE: js_values.dfy ===
/** The JavaScript values that reach the record service, and the two
    JavaScript tests the service applies to them: the filter skip rule and
    the truthiness of an optional number or string (`x || fallback`). */
module JsValues {
  import opened Wrappers

  /** A JavaScript number: a finite value or `NaN`. */
  datatype JsNumber = Finite(r: real) | NaN

  /** A value of a `filters` record or of a row body. */
  datatype JsValue =
    | Undefined
    | Null
    | Str(s: string)
    | Num(n: JsNumber)
    | Bool(b: bool)
    | Arr(items: seq<JsValue>)
    | Obj(entries: seq<Field>)

  /** One `[key, value]` pair of `Object.entries(record)`. */
  datatype Field = Field(key: string, value: JsValue)

  /** A record, as the sequence its entries are enumerated in. */
  type Fields = seq<Field>

  /** The filter rule: an entry is used unless its value is `undefined`,
      `null` or the empty string. Falsy values such as `0` and `false` are
      used. */
  predicate IsKept(v: JsValue)
    ensures !IsKept(v) <==> v in {Undefined, Null, Str("")}
  {
    !v.Undefined? && !v.Null? && v != Str("")
  }

  /** Truthiness of an optional number: `undefined`, `0` and `NaN` are
      falsy. */
  predicate NumberTruthy(n: Option<JsNumber>) {
    n.Some? && n.value.Finite? && n.value.r != 0.0
  }

  /** `n || fallback` for an optional number. */
  function NumberOr(n: Option<JsNumber>, fallback: real): real {
    if NumberTruthy(n) then n.value.r else fallback
  }

  /** `s || fallback` for an optional string: `undefined` and `''` are falsy. */
  function StringOr(s: Option<string>, fallback: string): string {
    if s.Some? && s.value != "" then s.value else fallback
  }
}

=== FILE: list_query.dfy ===
/** The query `getAll(options)` builds: a projection, the filter steps, an
    optional sort, an optional row limit and an optional offset window. */
module ListQuery {
  import opened Wrappers
  import opened JsValues
  import opened Queries
  import opened Filters

  /** `orderBy: { column, ascending? }`. */
  datatype OrderBy = OrderBy(column: string, ascending: Option<bool>)

  /** The `options` argument of `getAll`. Omitting the argument altogether
      reads every field as `undefined`, which is `NoOptions`. */
  datatype ListOptions = ListOptions(
    select: Option<string>,
    filters: Option<Fields>,
    orderBy: Option<OrderBy>,
    limit: Option<JsNumber>,
    offset: Option<JsNumber>)

  const NoOptions := ListOptions(None, None, None, None, None)

  /** The window width an offset uses when no truthy `limit` is given. */
  const DefaultPageSize: real := 10.0

  /** `select || '*'`: an absent or empty projection selects every column. */
  function Projection(select: Option<string>): (r: string)
    ensures select.Some? && select.value != "" ==> r == select.value
    ensures r == "*" <==> select.None? || select.value in {"", "*"}
  {
    StringOr(select, "*")
  }

  /** The `.order` step: only with `orderBy`, ascending unless `ascending`
      is `false`. */
  function OrderSteps(orderBy: Option<OrderBy>): (r: seq<Step>)
    ensures AllOfKind(r, OrderKind)
    ensures |r| <= 1 && (|r| == 1 <==> orderBy.Some?)
    ensures |r| == 1 ==> r[0].column == orderBy.value.column
    ensures |r| == 1 ==> (r[0].ascending <==> orderBy.value.ascending.None? || orderBy.value.ascending.value)
  {
    match orderBy
    case None => []
    case Some(o) => [Order(o.column, o.ascending != Some(false))]
  }

  /** The `.limit` step: only when `limit` is truthy, so not for `0` or
      `NaN`. */
  function LimitSteps(limit: Option<JsNumber>): (r: seq<Step>)
    ensures AllOfKind(r, LimitKind)
    ensures |r| <= 1 && (|r| == 1 <==> limit.Some? && limit.value !in {Finite(0.0), NaN})
    ensures |r| == 1 ==> Finite(r[0].rows) == limit.value
  {
    if NumberTruthy(limit) then [Limit(limit.value.r)] else []
  }

  /** The `.range` step: only when `offset` is truthy; the window starts at
      `offset` and is `limit` rows wide, or `DefaultPageSize` rows without a
      truthy `limit`. */
  function RangeSteps(limit: Option<JsNumber>, offset: Option<JsNumber>): (r: seq<Step>)
    ensures AllOfKind(r, RangeKind)
    ensures |r| <= 1 && (|r| == 1 <==> offset.Some? && offset.value !in {Finite(0.0), NaN})
    ensures |r| == 1 ==> Finite(r[0].lo) == offset.value
    ensures |r| == 1 && limit.Some? && limit.value !in {Finite(0.0), NaN} ==>
      Finite(r[0].hi - r[0].lo + 1.0) == limit.value
    ensures |r| == 1 && (limit.None? || limit.value in {Finite(0.0), NaN}) ==>
      r[0].hi - r[0].lo + 1.0 == DefaultPageSize
  {
    if NumberTruthy(offset)
    then [Range(offset.value.r, offset.value.r + NumberOr(limit, DefaultPageSize) - 1.0)]
    else []
  }

  /** The whole `getAll` query: the projection first, then the filters, the
      sort, the limit and the window, each group as its own function states. */
  function GetAllQuery(table: string, opts: ListOptions): (q: Query)
    ensures q.table == table
    ensures q.steps == [Select(Projection(opts.select))]
      + OfKind(q.steps, EqKind) + OfKind(q.steps, OrderKind)
      + OfKind(q.steps, LimitKind) + OfKind(q.steps, RangeKind)
    ensures OfKind(q.steps, EqKind) == FilterSteps(FieldsOf(opts.filters))
    ensures OfKind(q.steps, OrderKind) == OrderSteps(opts.orderBy)
    ensures OfKind(q.steps, LimitKind) == LimitSteps(opts.limit)
    ensures OfKind(q.steps, RangeKind) == RangeSteps(opts.limit, opts.offset)
  {
    var sel := [Select(Projection(opts.select))];
    var eqs := FilterSteps(FieldsOf(opts.filters));
    var ord := OrderSteps(opts.orderBy);
    var lim := LimitSteps(opts.limit);
    var rng := RangeSteps(opts.limit, opts.offset);
    var steps := sel + eqs + ord + lim + rng;
    GroupsOfKind(sel, eqs, ord, lim, rng);
    Query(table, steps)
  }

  /** Selecting one kind from the chained groups gives back the group of
      that kind. */
  lemma GroupsOfKind(sel: seq<Step>, eqs: seq<Step>, ord: seq<Step>, lim: seq<Step>, rng: seq<Step>)
    requires AllOfKind(sel, SelectKind) && AllOfKind(eqs, EqKind) && AllOfKind(ord, OrderKind)
    requires AllOfKind(lim, LimitKind) && AllOfKind(rng, RangeKind)
    ensures var steps := sel + eqs + ord + lim + rng;
      && OfKind(steps, EqKind) == eqs
      && OfKind(steps, OrderKind) == ord
      && OfKind(steps, LimitKind) == lim
      && OfKind(steps, RangeKind) == rng
  {
    GroupOfKind(sel, eqs, ord, lim, rng, EqKind);
    GroupOfKind(sel, eqs, ord, lim, rng, OrderKind);
    GroupOfKind(sel, eqs, ord, lim, rng, LimitKind);
    GroupOfKind(sel, eqs, ord, lim, rng, RangeKind);
  }

  lemma GroupOfKind(sel: seq<Step>, eqs: seq<Step>, ord: seq<Step>, lim: seq<Step>, rng: seq<Step>, k: StepKind)
    requires AllOfKind(sel, SelectKind) && AllOfKind(eqs, EqKind) && AllOfKind(ord, OrderKind)
    requires AllOfKind(lim, LimitKind) && AllOfKind(rng, RangeKind)
    ensures OfKind(sel + eqs + ord + lim + rng, k)
      == (if k == SelectKind then sel else [])
      + (if k == EqKind then eqs else [])
      + (if k == OrderKind then ord else [])
      + (if k == LimitKind then lim else [])
      + (if k == RangeKind then rng else [])
  {
    AppendGroup([], sel, SelectKind, k);
    assert [] + sel == sel;
    AppendGroup(sel, eqs, EqKind, k);
    AppendGroup(sel + eqs, ord, OrderKind, k);
    AppendGroup(sel + eqs + ord, lim, LimitKind, k);
    AppendGroup(sel + eqs + ord + lim, rng, RangeKind, k);
  }

  /** Chaining a group of one kind adds it to the steps of that kind only. */
  lemma AppendGroup(prefix: seq<Step>, group: seq<Step>, groupKind: StepKind, k: StepKind)
    requires AllOfKind(group, groupKind)
    ensures OfKind(prefix + group, k) == OfKind(prefix, k) + (if k == groupKind then group else [])
  {
    OfKindAppend(prefix, group, k);
    OfKindUniform(group, groupKind, k);
  }

  /** `getAll()` with no options asks for every column of every row, with
      no filter, sort, limit or window. */
  lemma NoOptionsSelectsEverything(table: string)
    ensures GetAllQuery(table, NoOptions).steps == [Select("*")]
  {
  }

  /** `{ limit: 10, offset: 20 }` asks for rows 20 to 29. */
  lemma SecondPageWindow(table: string)
    ensures Range(20.0, 29.0) in
      GetAllQuery(table, ListOptions(None, None, None, Some(Finite(10.0)), Some(Finite(20.0)))).steps
  {
  }

  /** An offset of `0` or `NaN` is falsy: without a truthy limit the query
      then has no window and no limit at all, while any other offset, a
      fraction included, is bounded to `DefaultPageSize` rows. */
  lemma OffsetZeroIsUnbounded(table: string, offset: JsNumber, limit: Option<JsNumber>)
    requires !NumberTruthy(limit)
    ensures var q := GetAllQuery(table, ListOptions(None, None, None, limit, Some(offset)));
      && (offset in {Finite(0.0), NaN} ==> OfKind(q.steps, LimitKind) == [] && OfKind(q.steps, RangeKind) == [])
      && (offset.Finite? && offset.r != 0.0 ==>
            OfKind(q.steps, RangeKind) == [Range(offset.r, offset.r + DefaultPageSize - 1.0)])
  {
  }

  /** A `NaN` limit is falsy: `{ limit: NaN, offset: 5 }` chains no limit
      and the 10-row window `range(5, 14)`; a fractional offset is truthy
      and starts the window where it is. */
  lemma NaNLimitAndFractionalOffset(table: string)
    ensures var q := GetAllQuery(table, ListOptions(None, None, None, Some(NaN), Some(Finite(5.0))));
      OfKind(q.steps, LimitKind) == [] && OfKind(q.steps, RangeKind) == [Range(5.0, 14.0)]
    ensures var q := GetAllQuery(table, ListOptions(None, None, None, None, Some(Finite(0.5))));
      OfKind(q.steps, RangeKind) == [Range(0.5, 9.5)]
  {
  }
}

=== FILE: queries.dfy ===
/** The abstract query a service method hands to the remote store: the table
    named in `from(table)` and the builder calls chained onto it, in the
    order they are chained. Also the remote's answer and how a method turns
    that answer into a returned value or a thrown error. */
module Queries {
  import opened Wrappers
  import opened JsValues

  datatype Step =
    | Select(columns: string)                  // `.select(columns)`; `.select()` selects "*"
    | CountExact                               // `{ count: 'exact', head: true }`: exact row count, no row bodies
    | Insert(body: Fields)                     // `.insert(body)`
    | UpdateWith(patch: Fields)                // `.update(patch)`
    | DeleteRows                               // `.delete()`
    | Eq(column: string, value: JsValue)       // `.eq(column, value)`
    | Order(column: string, ascending: bool)   // `.order(column, { ascending })`
    | Limit(rows: real)                        // `.limit(rows)`
    | Range(lo: real, hi: real)                // `.range(lo, hi)`, both ends inclusive
    | ILike(column: string, pattern: string)   // `.ilike(column, pattern)`
    | Or(filters: string)                      // `.or(filters)`, in the remote's `column.op.value` syntax
    | Single                                   // `.single()`: the remote must find exactly one row

  /** The kind of a step, ignoring its arguments. */
  datatype StepKind =
    | SelectKind | CountKind | InsertKind | UpdateKind | DeleteKind | EqKind
    | OrderKind | LimitKind | RangeKind | ILikeKind | OrKind | SingleKind

  function KindOf(s: Step): StepKind {
    match s
    case Select(_) => SelectKind
    case CountExact => CountKind
    case Insert(_) => InsertKind
    case UpdateWith(_) => UpdateKind
    case DeleteRows => DeleteKind
    case Eq(_, _) => EqKind
    case Order(_, _) => OrderKind
    case Limit(_) => LimitKind
    case Range(_, _) => RangeKind
    case ILike(_, _) => ILikeKind
    case Or(_) => OrKind
    case Single => SingleKind
  }

  datatype Query = Query(table: string, steps: seq<Step>)

  /** The steps of kind `k`, in the order they were chained. */
  function OfKind(steps: seq<Step>, k: StepKind): (r: seq<Step>)
    ensures |r| <= |steps|
    ensures forall i :: 0 <= i < |r| ==> KindOf(r[i]) == k
  {
    if |steps| == 0 then []
    else (if KindOf(steps[0]) == k then [steps[0]] else []) + OfKind(steps[1..], k)
  }

  ghost predicate AllOfKind(steps: seq<Step>, k: StepKind) {
    forall i :: 0 <= i < |steps| ==> KindOf(steps[i]) == k
  }

  /** Selecting one kind distributes over chaining. */
  lemma {:induction false} OfKindAppend(a: seq<Step>, b: seq<Step>, k: StepKind)
    ensures OfKind(a + b, k) == OfKind(a, k) + OfKind(b, k)
  {
    if |a| == 0 {
      assert a + b == b;
    } else {
      assert (a + b)[1..] == a[1..] + b;
      OfKindAppend(a[1..], b, k);
    }
  }

  /** The step `s` if it has kind `k`, and nothing otherwise. */
  function Pick(s: Step, k: StepKind): seq<Step> {
    if KindOf(s) == k then [s] else []
  }

  lemma OfKindCons(s: Step, rest: seq<Step>, k: StepKind)
    ensures OfKind([s] + rest, k) == Pick(s, k) + OfKind(rest, k)
  {
    assert ([s] + rest)[1..] == rest;
  }

  /** Selecting a kind from a chain of two or three steps. */
  lemma OfKindOfTwo(a: Step, b: Step, k: StepKind)
    ensures OfKind([a, b], k) == Pick(a, k) + Pick(b, k)
  {
    assert [a, b][1..] == [b];
    assert [b][1..] == [];
  }

  lemma OfKindOfThree(a: Step, b: Step, c: Step, k: StepKind)
    ensures OfKind([a, b, c], k) == Pick(a, k) + Pick(b, k) + Pick(c, k)
  {
    assert [a, b, c][1..] == [b, c];
    OfKindOfTwo(b, c, k);
  }

  /** A run of steps of one kind is kept whole by its own kind and dropped
      by every other. */
  lemma {:induction false} OfKindUniform(steps: seq<Step>, k: StepKind, other: StepKind)
    requires AllOfKind(steps, k)
    ensures OfKind(steps, k) == steps
    ensures other != k ==> OfKind(steps, other) == []
  {
    if |steps| > 0 {
      OfKindUniform(steps[1..], k, other);
    }
  }

  /** A structured error object returned by the remote store. */
  datatype RemoteError = RemoteError(code: string, message: string)

  /** The remote's answer `{ data, count, error }`; `data` is whatever the
      remote returned and is passed on unexamined. */
  datatype Response<D> = Response(data: D, count: Option<int>, error: Option<RemoteError>)

  /** How a service call ends: a returned value or a thrown error. */
  datatype Outcome<D> = Returned(value: D) | Thrown(error: RemoteError)

  /** `if (error) throw error; return data;`: the error is thrown as it
      came, and the data is returned only when there is no error. */
  function Settle<D>(resp: Response<D>): (r: Outcome<D>)
    ensures Propagates(r, resp, resp.data)
  {
    SettleWith(resp, resp.data)
  }

  /** `if (error) throw error; return value;` for a method that returns
      something other than the data: nothing, or the count. */
  function SettleWith<D, V>(resp: Response<D>, value: V): (r: Outcome<V>)
    ensures Propagates(r, resp, value)
  {
    if resp.error.Some? then Thrown(resp.error.value) else Returned(value)
  }

  /** `r` is what a method that throws the remote error unchanged, and
      otherwise returns `value`, ends with. */
  ghost predicate Propagates<D, V>(r: Outcome<V>, resp: Response<D>, value: V) {
    && (r.Thrown? <==> resp.error.Some?)
    && (r.Thrown? ==> r.error == resp.error.value)
    && (r.Returned? ==> r.value == value)
  }
}

=== FILE: record_service.dfy ===
/** The generic record service over one table: seven operations, each of
    which builds one query, hands it to the remote store and either returns
    what came back or throws the remote error unchanged. The remote store is
    a parameter `remote: Query -> Response<D>`; nothing about its behaviour is
    assumed. */
module RecordService {
  import opened Wrappers
  import opened JsValues
  import opened Queries
  import opened Filters
  import opened ListQuery
  import opened SearchQueries

  /** A service bound to one table at construction. */
  datatype Service = Service(tableName: string)

  /** The primary-key filter every by-id operation chains. */
  function IdFilter(id: string): Step {
    Eq("id", Str(id))
  }

  function GetByIdQuery(table: string, id: string, select: Option<string>): (q: Query)
    ensures q.table == table
    ensures |q.steps| == 3 && q.steps[0] == Select(Projection(select)) && q.steps[2] == Single
    ensures OfKind(q.steps, EqKind) == [Eq("id", Str(id))]
  {
    OfKindOfThree(Select(Projection(select)), IdFilter(id), Single, EqKind);
    Query(table, [Select(Projection(select)), IdFilter(id), Single])
  }

  /** `insert(data).select().single()`: the body goes unchanged, nothing
      filters, and the stored row is read back. */
  function CreateQuery(table: string, data: Fields): (q: Query)
    ensures q.table == table
    ensures |q.steps| == 3 && q.steps[0] == Insert(data) && q.steps[1] == Select("*") && q.steps[2] == Single
    ensures OfKind(q.steps, EqKind) == []
  {
    OfKindOfThree(Insert(data), Select("*"), Single, EqKind);
    Query(table, [Insert(data), Select("*"), Single])
  }

  /** `update(data).eq('id', id).select().single()`. */
  function UpdateQuery(table: string, id: string, data: Fields): (q: Query)
    ensures q.table == table
    ensures |q.steps| == 4 && q.steps[0] == UpdateWith(data) && q.steps[2] == Select("*") && q.steps[3] == Single
    ensures OfKind(q.steps, EqKind) == [Eq("id", Str(id))]
  {
    var tail := [IdFilter(id), Select("*"), Single];
    OfKindCons(UpdateWith(data), tail, EqKind);
    OfKindOfThree(IdFilter(id), Select("*"), Single, EqKind);
    Query(table, [UpdateWith(data)] + tail)
  }

  /** `delete().eq('id', id)`: no `.single()`, so the remote is not asked
      for exactly one row and a missing id is not an error of its own. */
  function DeleteQuery(table: string, id: string): (q: Query)
    ensures q.table == table
    ensures |q.steps| == 2 && q.steps[0] == DeleteRows
    ensures OfKind(q.steps, EqKind) == [Eq("id", Str(id))]
  {
    OfKindOfTwo(DeleteRows, IdFilter(id), EqKind);
    Query(table, [DeleteRows, IdFilter(id)])
  }

  /** `select('*', { count: 'exact', head: true })` and the filter steps. */
  function CountQuery(table: string, filters: Option<Fields>): (q: Query)
    ensures q.table == table
    ensures |q.steps| >= 2 && q.steps[..2] == [Select("*"), CountExact]
    ensures OfKind(q.steps, EqKind) == FilterSteps(FieldsOf(filters))
    ensures |q.steps| == 2 + |FilterSteps(FieldsOf(filters))|
  {
    var eqs := FilterSteps(FieldsOf(filters));
    var steps := [Select("*"), CountExact] + eqs;
    OfKindAppend([Select("*"), CountExact], eqs, EqKind);
    FilterStepsOnlyEq(FieldsOf(filters), EqKind);
    Query(table, steps)
  }

  /** `count || 0`: a missing (`null`) count reads as zero. */
  function CountOrZero(count: Option<int>): (n: int)
    ensures count.Some? ==> n == count.value
    ensures n == 0 <==> count.None? || count.value == 0
  {
    count.GetOr(0)
  }

  function GetAll<D>(svc: Service, opts: ListOptions, remote: Query -> Response<D>): (r: Outcome<D>)
    ensures var resp := remote(GetAllQuery(svc.tableName, opts)); Propagates(r, resp, resp.data)
  {
    Settle(remote(GetAllQuery(svc.tableName, opts)))
  }

  function GetById<D>(svc: Service, id: string, select: Option<string>, remote: Query -> Response<D>): (r: Outcome<D>)
    ensures var resp := remote(GetByIdQuery(svc.tableName, id, select)); Propagates(r, resp, resp.data)
  {
    Settle(remote(GetByIdQuery(svc.tableName, id, select)))
  }

  function Create<D>(svc: Service, data: Fields, remote: Query -> Response<D>): (r: Outcome<D>)
    ensures var resp := remote(CreateQuery(svc.tableName, data)); Propagates(r, resp, resp.data)
  {
    Settle(remote(CreateQuery(svc.tableName, data)))
  }

  function Update<D>(svc: Service, id: string, data: Fields, remote: Query -> Response<D>): (r: Outcome<D>)
    ensures var resp := remote(UpdateQuery(svc.tableName, id, data)); Propagates(r, resp, resp.data)
  {
    Settle(remote(UpdateQuery(svc.tableName, id, data)))
  }

  /** `delete` returns nothing: whatever data comes back is dropped. */
  function Delete<D>(svc: Service, id: string, remote: Query -> Response<D>): (r: Outcome<()>)
    ensures Propagates(r, remote(DeleteQuery(svc.tableName, id)), ())
  {
    SettleWith(remote(DeleteQuery(svc.tableName, id)), ())
  }

  /** `count` returns the remote count, or zero when it is `null`; it
      never looks at row data. */
  function Count<D>(svc: Service, filters: Option<Fields>, remote: Query -> Response<D>): (r: Outcome<int>)
    ensures var resp := remote(CountQuery(svc.tableName, filters)); Propagates(r, resp, CountOrZero(resp.count))
    ensures var resp := remote(CountQuery(svc.tableName, filters));
      r.Returned? && (resp.count.None? || resp.count.value >= 0) ==> r.value >= 0
  {
    var resp := remote(CountQuery(svc.tableName, filters));
    SettleWith(resp, CountOrZero(resp.count))
  }

  function Search<D>(svc: Service, term: string, columns: seq<string>, remote: Query -> Response<D>): (r: Outcome<D>)
    ensures var resp := remote(SearchQuery(svc.tableName, term, columns)); Propagates(r, resp, resp.data)
  {
    Settle(remote(SearchQuery(svc.tableName, term, columns)))
  }

  /** `count(filters)` filters exactly as `getAll` does with the same
      filters, whatever the other options. */
  lemma CountFiltersAsList(table: string, filters: Option<Fields>, opts: ListOptions)
    requires opts.filters == filters
    ensures OfKind(CountQuery(table, filters).steps, EqKind) == OfKind(GetAllQuery(table, opts).steps, EqKind)
  {
  }

  /** `count(filters)` carries no sort, limit or window. */
  lemma {:induction false} CountIsUnpaged(table: string, filters: Option<Fields>)
    ensures var q := CountQuery(table, filters);
      OfKind(q.steps, OrderKind) == [] && OfKind(q.steps, LimitKind) == [] && OfKind(q.steps, RangeKind) == []
  {
    var eqs := FilterSteps(FieldsOf(filters));
    var prefix := [Select("*"), CountExact];
    OfKindOfTwo(Select("*"), CountExact, OrderKind);
    OfKindOfTwo(Select("*"), CountExact, LimitKind);
    OfKindOfTwo(Select("*"), CountExact, RangeKind);
    OfKindAppend(prefix, eqs, OrderKind);
    OfKindAppend(prefix, eqs, LimitKind);
    OfKindAppend(prefix, eqs, RangeKind);
    FilterStepsOnlyEq(FieldsOf(filters), OrderKind);
    FilterStepsOnlyEq(FieldsOf(filters), LimitKind);
    FilterStepsOnlyEq(FieldsOf(filters), RangeKind);
  }

  /** Past its head, `count(filters)` is the query `getAll({ filters })`
      builds: the rows it counts are the rows that listing would return. */
  lemma CountMatchesUnpagedList(table: string, filters: Option<Fields>)
    ensures var l := GetAllQuery(table, ListOptions(None, filters, None, None, None));
      CountQuery(table, filters).steps == [Select("*"), CountExact] + l.steps[1..]
  {
    var l := GetAllQuery(table, ListOptions(None, filters, None, None, None));
    assert l.steps == [Select("*")] + FilterSteps(FieldsOf(filters)) + [] + [] + [];
    assert l.steps[1..] == FilterSteps(FieldsOf(filters));
  }

  /** With a non-empty id, `getById` is `getAll` filtered on that id with
      `.single()` chained on. */
  lemma GetByIdIsSingleFilteredList(table: string, id: string, select: Option<string>)
    requires id != ""
    ensures GetByIdQuery(table, id, select).steps
      == GetAllQuery(table, ListOptions(select, Some([Field("id", Str(id))]), None, None, None)).steps + [Single]
  {
    var l := GetAllQuery(table, ListOptions(select, Some([Field("id", Str(id))]), None, None, None));
    assert [Field("id", Str(id))][1..] == [];
    assert FilterSteps([Field("id", Str(id))]) == [Eq("id", Str(id))];
    assert OrderSteps(None) == [] && LimitSteps(None) == [] && RangeSteps(None, None) == [];
    assert l.steps == [Select(Projection(select))] + [Eq("id", Str(id))] + [] + [] + [];
  }

  /** With the empty id the two differ: `getAll` drops an empty filter
      value, while `getById` still filters on `id = ''`. */
  lemma GetByIdKeepsEmptyId(table: string, select: Option<string>)
    ensures OfKind(GetByIdQuery(table, "", select).steps, EqKind) == [Eq("id", Str(""))]
    ensures OfKind(GetAllQuery(table, ListOptions(select, Some([Field("id", Str(""))]), None, None, None)).steps, EqKind) == []
  {
  }

  /** `getById`, `update` and `delete` aim at the same row: each filters
      on `id` and on nothing else. */
  lemma ByIdOperationsShareFilter(table: string, id: string, select: Option<string>, data: Fields)
    ensures OfKind(GetByIdQuery(table, id, select).steps, EqKind) == OfKind(UpdateQuery(table, id, data).steps, EqKind)
    ensures OfKind(UpdateQuery(table, id, data).steps, EqKind) == OfKind(DeleteQuery(table, id).steps, EqKind)
  {
  }

  /** `create` reads the stored row back with the same projection and
      `.single()` that `getById(id)` uses, without the `id` filter. */
  lemma CreateReadsBackAsGetById(table: string, data: Fields, id: string)
    ensures var g := GetByIdQuery(table, id, None).steps;
      CreateQuery(table, data).steps[1..] == [g[0], g[2]]
  {
  }

  /** `update` reads the changed row back with the same three steps
      `getById(id)` uses, the `id` filter chained first. */
  lemma UpdateReadsBackAsGetById(table: string, id: string, data: Fields)
    ensures var g := GetByIdQuery(table, id, None).steps;
      UpdateQuery(table, id, data).steps[1..] == [g[1], g[0], g[2]]
  {
  }
}

=== FILE: search_query.dfy ===
/** The query `search(term, columns)` builds: a case-insensitive pattern
    match on the first column, then one separate `.or(...)` call per later
    column. Each `.or(...)` carries a single condition, so the remote
    receives one filter per column rather than one disjunction. */
module SearchQueries {
  import opened Wrappers
  import opened Queries

  /** `%term%`: the term anywhere in the value. */
  function IlikePattern(term: string): string {
    "%" + term + "%"
  }

  /** `column.ilike.%term%`, the condition handed to `.or(...)`. */
  function OrIlikeClause(column: string, term: string): string {
    column + ".ilike." + IlikePattern(term)
  }

  /** The step the `forEach` callback chains for `column` at `index`. */
  function SearchStep(term: string, column: string, index: nat): Step {
    if index == 0 then ILike(column, IlikePattern(term)) else Or(OrIlikeClause(column, term))
  }

  /** The steps the `forEach` loop chains for `columns[from..]`. */
  function SearchSteps(term: string, columns: seq<string>, from: nat): (r: seq<Step>)
    requires from <= |columns|
    decreases |columns| - from
    ensures |r| == |columns| - from
    ensures forall i :: from <= i < |columns| ==> r[i - from] == SearchStep(term, columns[i], i)
  {
    if from == |columns| then []
    else [SearchStep(term, columns[from], from)] + SearchSteps(term, columns, from + 1)
  }

  function SearchQuery(table: string, term: string, columns: seq<string>): (q: Query)
    ensures q.table == table
    ensures |q.steps| == 1 + |columns| && q.steps[0] == Select("*")
    ensures |columns| > 0 ==> q.steps[1] == ILike(columns[0], "%" + term + "%")
    ensures forall i :: 1 <= i < |columns| ==> q.steps[i + 1] == Or(columns[i] + ".ilike.%" + term + "%")
  {
    var steps := [Select("*")] + SearchSteps(term, columns, 0);
    assert forall i :: 1 <= i < |columns| ==> steps[i + 1] == SearchStep(term, columns[i], i);
    Query(table, steps)
  }

  /** Without columns, `search` asks for every row unfiltered. */
  lemma NoColumnsIsUnfiltered(table: string, term: string)
    ensures SearchQuery(table, term, []).steps == [Select("*")]
  {
  }

  /** One `column.ilike.pattern` condition, as the remote reads it out of
      the text handed to `.or(...)`. */
  datatype IlikeCondition = IlikeCondition(column: string, pattern: string)

  /** The position of the first `c` in `s`. */
  function FirstIndexOf(s: string, c: char): (r: Option<nat>)
    ensures r.Some? ==> r.value < |s| && s[r.value] == c
    ensures r.Some? ==> forall j :: 0 <= j < r.value ==> s[j] != c
    ensures r.None? ==> forall j :: 0 <= j < |s| ==> s[j] != c
  {
    if |s| == 0 then None
    else if s[0] == c then Some(0)
    else
      match FirstIndexOf(s[1..], c)
      case None => None
      case Some(k) => Some(k + 1)
  }

  /** A character absent from `prefix` is first found where `tail` starts
      with it. */
  lemma {:induction false} FirstIndexAfterPrefix(prefix: string, tail: string, c: char)
    requires c !in prefix && |tail| > 0 && tail[0] == c
    ensures FirstIndexOf(prefix + tail, c) == Some(|prefix|)
  {
    if |prefix| > 0 {
      assert (prefix + tail)[1..] == prefix[1..] + tail;
      FirstIndexAfterPrefix(prefix[1..], tail, c);
    }
  }

  /** `s` cut at every `sep`; the pieces hold no `sep`. */
  function SplitAt(s: string, sep: char): (r: seq<string>)
    decreases |s|
    ensures |r| >= 1
    ensures forall i, j :: 0 <= i < |r| && 0 <= j < |r[i]| ==> r[i][j] != sep
  {
    match FirstIndexOf(s, sep)
    case None => [s]
    case Some(k) => [s[..k]] + SplitAt(s[k + 1..], sep)
  }

  /** Reads one condition `column.ilike.pattern`: the column runs up to the
      first dot, and the pattern is everything after `ilike.`. Any other
      shape is malformed. */
  function ParseCondition(text: string): Option<IlikeCondition> {
    match FirstIndexOf(text, '.')
    case None => None
    case Some(k) =>
      var rest := text[k + 1..];
      if |rest| >= 6 && rest[..6] == "ilike."
      then Some(IlikeCondition(text[..k], rest[6..]))
      else None
  }

  /** Reads the text handed to `.or(...)`: the remote takes it as a list of
      conditions separated by commas. */
  function ParseOrFilter(text: string): (r: seq<Option<IlikeCondition>>)
    ensures |r| == |SplitAt(text, ',')|
  {
    var pieces := SplitAt(text, ',');
    seq(|pieces|, i requires 0 <= i < |pieces| => ParseCondition(pieces[i]))
  }

  /** Text without the separator is one piece. */
  lemma SplitAtWhole(s: string, sep: char)
    requires sep !in s
    ensures SplitAt(s, sep) == [s]
  {
    assert FirstIndexOf(s, sep) == None;
  }

  /** Text cut at its first separator. */
  lemma SplitAtFirst(prefix: string, rest: string, sep: char)
    requires sep !in prefix
    ensures SplitAt(prefix + [sep] + rest, sep) == [prefix] + SplitAt(rest, sep)
  {
    var s := prefix + [sep] + rest;
    assert s == prefix + ([sep] + rest);
    FirstIndexAfterPrefix(prefix, [sep] + rest, sep);
    assert s[..|prefix|] == prefix && s[|prefix| + 1..] == rest;
  }

  /** A condition written as `column.ilike.pattern` reads back as itself
      when the column has no dot. */
  lemma ParseConditionOf(column: string, pattern: string)
    requires '.' !in column
    ensures ParseCondition(column + ".ilike." + pattern) == Some(IlikeCondition(column, pattern))
  {
    var rest := "ilike." + pattern;
    var text := column + ("." + rest);
    assert column + ".ilike." + pattern == text;
    FirstIndexAfterPrefix(column, "." + rest, '.');
    assert text[..|column|] == column && text[|column| + 1..] == rest;
    assert rest[..6] == "ilike." && rest[6..] == pattern;
  }

  /** The `.or` text chained for a later column reads back as one condition
      on that column with the same pattern the first column gets, provided
      neither the column nor the term contains a character of the remote's
      filter syntax. */
  lemma OrIlikeClauseRoundTrip(column: string, term: string)
    requires '.' !in column && ',' !in column && '(' !in column && ')' !in column
    requires ',' !in term && '(' !in term && ')' !in term
    ensures ParseOrFilter(OrIlikeClause(column, term)) == [Some(IlikeCondition(column, IlikePattern(term)))]
  {
    var clause := OrIlikeClause(column, term);
    assert clause == column + ".ilike." + IlikePattern(term);
    assert ',' !in clause;
    SplitAtWhole(clause, ',');
    ParseConditionOf(column, IlikePattern(term));
  }

  /** The term is put into the `.or` text unescaped, so a comma in it
      splits the condition: the term `a,b` reaches the remote as the
      condition `column.ilike.%a` followed by the malformed text `b%`. */
  lemma CommaInTermSplitsCondition(column: string, a: string, b: string)
    requires '.' !in column && ',' !in column && ',' !in a && ',' !in b && '.' !in b
    ensures ParseOrFilter(OrIlikeClause(column, a + "," + b)) == [Some(IlikeCondition(column, "%" + a)), None]
  {
    var first, second := column + ".ilike." + ("%" + a), b + "%";
    assert OrIlikeClause(column, a + "," + b) == first + [','] + second;
    SplitAtFirst(first, second, ',');
    SplitAtWhole(second, ',');
    ParseConditionOf(column, "%" + a);
    assert FirstIndexOf(second, '.') == None;
  }
}

=== FILE: wrappers.dfy ===
/** The optional-value type used for every `x?: T` parameter and every
    nullable field of a remote response. */
module Wrappers {

  datatype Option<+T> = None | Some(value: T) {

    /** The wrapped value, or `default` when there is none. */
    function GetOr(default: T): T {
      match this
      case Some(v) => v
      case None => default
    }
  }
}
